=== FILE: README.md ===
# Datastore emulator supervisor, modelled in Dafny

`emulator.go` manages the lifecycle of the `gcloud` Datastore emulator for
integration tests. `Start` first runs discovery. If `DATASTORE_HOST` and
`DATASTORE_PROJECT_ID` are set and a health probe to the handle's current
host succeeds, it adopts them. Otherwise it sets `stopOnClose`, launches the
emulator, reads the output of its `env-init` subcommand, publishes the host
and project in the environment, and polls the health endpoint until it
answers. `Reset` asks the emulator to drop its data. `Close` clears the
environment, and may shut the emulator down, for any handle whose `Start`
set `stopOnClose`, including one whose launch failed.

The model is a functional state machine. A `State` holds:

- the `Handle` (`Host`, `ProjectID`, `stopOnClose`);
- the process environment as a `map<string, string>`;
- an oracle of HTTP answers, consumed one per request;
- the log of requests attempted (verb, host, path);
- the number of emulator processes launched.

Every operation is a pure function from a state to an outcome and a new
state. Waiting is counted in polling ticks, not in wall-clock time.

Modules:

- `Text` (`text.dfy`): Go's `strings.Split` for a one-character separator,
  with its inverse `Join`.
- `EnvInit` (`envinit.dfy`): the `env-init` line parser. `Yields` is its
  independent reference definition: the value of the last line with the
  key, or `""` when no line has it.
- `Emulator` (`emulator.dfy`): the handle, requests, discovery, `Reset`,
  `Close`, `initEnv`, the polling loop and `Start`/`New`.
- `Lifecycle` (`lifecycle.dfy`): properties of whole start/close sequences,
  including the ownership safety property.
- `Intended` (`intended.dfy`): discovery and startup corrected as described
  under "Findings", with the ownership rule proved for them.

Behaviour of the code that the model keeps:

- Discovery probes before it assigns the discovered host
  (emulator.go:75-79). The probe therefore goes to the handle's current
  `Host`. For a handle from `New` that host is empty, the URL has no
  scheme, and the HTTP client rejects it. So `New` never adopts a running
  instance, although the doc comment of `Start` (emulator.go:41-42) says a
  running instance is used instead of starting a new one. `Emulator.New`
  proves that it always takes ownership.
- Discovery reads `DATASTORE_HOST` (emulator.go:67). Publication and
  teardown use `DATASTORE_EMULATOR_HOST` (emulator.go:95, 122). The model
  keeps the two names apart.
- `stopOnClose` is set before the launch (emulator.go:47) and stays set
  when the launch fails (emulator.go:52-53). A later `Close` then clears
  the environment and may shut down an instance this handle never started.
  The doc comment of `Close` (emulator.go:89-90) promises cleanup "only if
  an instance was started and not recycled". In the model, `stopOnClose`
  records that ownership was claimed, not that a process was launched.
- A malformed `env-init` line makes the source panic (index `[1]`,
  emulator.go:114-115). The model makes well-formedness a precondition
  (`EnvInit.WellFormedLine`).

`Emulator` and `Lifecycle` model the code as written. `Intended` keeps
everything after the launch (`Emulator.Boot`) and corrects the two startup
steps above.

## Model

| member | source | states |
|---|---|---|
| Text.Split | emulator.go:114 | The pieces contain no separator, and joining them with it gives back the input. There is exactly one piece iff the separator does not occur. |
| Text.SplitJoin | emulator.go:114 | Splitting the join of separator-free pieces returns the pieces, so `Split` is the unique inverse of `Join`. |
| EnvInit.ParseLine | emulator.go:113-115 | Key and value contain neither `=` nor a space. The second token starts with `key=value`, followed by nothing or by `=`, so a value with `=` is cut at it. |
| EnvInit.ParseFormattedLine | emulator.go:114-115 | A line `<tok> K=V`, optionally with `=...` inside the token and further tokens, is well formed and binds `K` to `V`. |
| EnvInit.ParseLines | emulator.go:110-116 | The keys are exactly the keys of the lines. Each key reads as the value of its last line, or `""` if no line has it (`Yields`). |
| EnvInit.LastLineWins | emulator.go:115 | A line overrides every earlier line with the same key when no later line has that key. |
| EnvInit.ParseLinesAppend | emulator.go:112-116 | Parsing a concatenation is the union of the two parses, with the later lines winning. |
| Emulator.Send | emulator.go:158-174 | A request succeeds iff the host is non-empty and the answer is status 200. Any other status is a status error. No answer or an empty host is a transport error. One request is logged and one answer consumed. |
| Emulator.IsHealthy | emulator.go:127-132 | Healthy iff the handle's host is non-empty and the next answer is status 200. Exactly one GET of the root path to the handle's host is logged. |
| Emulator.InstanceIsPresent | emulator.go:66-81 | True iff both discovery variables are non-empty and the probe succeeds. Host and project are copied from the environment only when it returns true, and are unchanged otherwise. With a variable missing, nothing is sent. The probe targets the handle's host as it was before discovery. No process is launched. |
| Emulator.Reset | emulator.go:85-87 | Exactly one `POST /reset` is sent and one answer consumed. The result is success iff the handle's host is non-empty and the answer is 200. Handle, environment and launch count are unchanged. |
| Emulator.Close | emulator.go:91-101 | A non-owning handle changes nothing and succeeds. An owning handle removes `DATASTORE_EMULATOR_HOST` and `DATASTORE_PROJECT_ID` and no other key. It sends `POST /shutdown` only after a successful probe and succeeds when the probe fails. It consumes one answer, or two when it shuts down, and never launches a process. |
| Emulator.InitEnv | emulator.go:103-125 | A failed run or read leaves the state unchanged and returns the error. Otherwise host and project are the parsed `DATASTORE_HOST` and `DATASTORE_PROJECT_ID` (`""` if absent). `DATASTORE_EMULATOR_HOST` and `DATASTORE_PROJECT_ID` are set from the parse, and no other key changes. No request is sent and no process launched. |
| Emulator.ConfirmStartup | emulator.go:134-150 | Succeeds iff one of the `ticks` probes is healthy. It stops at the first healthy probe, with no healthy probe before it. Otherwise it reports the deadline after exactly `ticks` probes. |
| Emulator.AwaitOrClose | emulator.go:59-62 | A failed wait returns the deadline error. After the `ticks` probes, the internal `Close` probes the host once more and sends `POST /shutdown` when that probe gets 200. It clears the published variables and keeps the rest of the environment. |
| Emulator.Boot | emulator.go:55-63 | After the launch, returns the `env-init` error or the deadline error. Every failure runs the internal `Close`: a GET probe to the handle's host, then `POST /shutdown` when it gets 200, and the published variables cleared. After an `env-init` failure that is all that is sent. After a deadline failure it follows the `ticks` probes. Success needs the parsed host to be non-empty and a healthy probe within `ticks`. |
| Emulator.Start | emulator.go:43-64 | When both discovery variables are set and a probe to the handle's current host gets 200, it adopts them without a launch and keeps `stopOnClose`. Otherwise `stopOnClose` is set, one process is launched iff launching works, and a failed launch leaves the environment unchanged. The log grows by at most `ticks` + 3 requests, and by at most `MaxProbes` + 3 when `ticks` is at most `MaxProbes`. |
| Emulator.New | emulator.go:31-37 | The new handle always owns the emulator. One process is launched iff launching works, and success implies a launched process and a non-empty host. |
| Lifecycle.StartFailureAfterLaunch | emulator.go:55-62 | A failure after the launch returns the original `env-init` or deadline error. The internal `Close` has cleared the environment, probed the handle's host and sent `POST /shutdown` when that probe got 200. After a deadline failure this follows the `ticks` probes. |
| Lifecycle.StartTakesParsedHandle | emulator.go:55-58 | After a launch with readable `env-init` output, the handle carries the parsed `DATASTORE_HOST` and `DATASTORE_PROJECT_ID`, whether startup then succeeds or not. |
| Lifecycle.StartConfirmsLaunch | emulator.go:55-63 | After a launch with readable `env-init` output, startup succeeds iff the parsed host is non-empty and one of the `ticks` probes after discovery gets 200. |
| Lifecycle.StartPublishes | emulator.go:122-123 | A successful launch publishes the parsed `DATASTORE_EMULATOR_HOST` and `DATASTORE_PROJECT_ID` and leaves every other variable alone. |
| Lifecycle.NeverHealthyTimesOut | emulator.go:145-147 | If the emulator never answers 200, a launch ends with the deadline error, still owned, with the published variables cleared. |
| Lifecycle.AdoptedCloseIsInert | emulator.go:91-94 | After adopting an instance, the handle is not owning, nothing was launched, and `Close` changes nothing. |
| Lifecycle.OnlyOwnerTearsDown | emulator.go:92-98 | Starting from a non-owning handle, a later `Close` clears the environment or sends a shutdown only if discovery failed and ownership was claimed for a launch. |
| Lifecycle.FailedLaunchTearsDown | emulator.go:47-53 | After a failed launch the handle still owns the emulator. A later `Close` removes the published variables, and sends `POST /shutdown` when the host answers 200, although nothing was launched. |
| Lifecycle.ForeignInstanceShutDown | emulator.go:47-53 | A handle at `http://foreign:1` whose launch fails sends a GET and then `POST /shutdown` to that host on `Close`, with no process launched. |
| Lifecycle.NewIgnoresRunningInstance | emulator.go:75-79 | With both discovery variables set and a healthy instance answering, `New` with a working launcher still launches a process and owns it. |
| Intended.Discover | emulator.go:66-81 | Discovery probes the advertised `DATASTORE_HOST`. It succeeds iff both variables are set and that probe gets 200. Host and project are taken only on success. |
| Intended.CorrectedStart | emulator.go:43-64 | A found instance is adopted with no launch. A failed launch returns `LaunchFailed` with the handle, `stopOnClose` included, unchanged. Only a successful launch claims ownership. |
| Intended.CorrectedNew | emulator.go:31-37 | A healthy advertised instance is adopted without a launch and without ownership. The handle owns the emulator iff it launched one. |
| Intended.OnlyLauncherTearsDown | emulator.go:89-98 | Starting from a non-owning handle, a later `Close` clears the environment or sends a shutdown only if discovery found nothing and this handle launched a process. |
| Intended.NewReusesRunningInstance | emulator.go:39-45 | For a healthy advertised instance and a working launcher, the source's `New` launches a process, while the corrected one reuses the instance and succeeds. |
| Lifecycle.CloseTwice | emulator.go:95-96 | A second `Close` does not change the environment left by the first. |

## Findings

| source | as written | input that shows it | evidently intended | confidence | as-written member | corrected member |
|---|---|---|---|---|---|---|
| emulator.go:75-79 | Discovery probes the handle's `Host` before assigning the advertised one. From `New` that host is empty, so the probe always fails. | `DATASTORE_HOST` and `DATASTORE_PROJECT_ID` set, the instance answering 200, a working launcher: `New` launches a second emulator. | Probe the advertised host, so a running instance is reused as the doc comment at emulator.go:41-42 says. | medium, not executed | Lifecycle.NewIgnoresRunningInstance | Intended.NewReusesRunningInstance |
| emulator.go:47-53 | `stopOnClose` is set before the launch and stays set when it fails. | Handle at `http://foreign:1`, failing launch, then `Close`: a GET and a `POST /shutdown` go to that host with no process launched. | Claim ownership only after a successful launch, so `Close` cleans up only what this handle started (emulator.go:89-90). | medium, not executed | Lifecycle.FailedLaunchTearsDown | Intended.OnlyLauncherTearsDown |

## Left out

- Running `gcloud` (emulator.go:48-54, 104-109, 152-156) is foreign process execution. The launch is a success flag plus a launch counter. The `env-init` run is a success flag plus the lines it printed. The command-line arguments are not modelled.
- The HTTP client, URL construction and the per-request timeout (emulator.go:158-169) are network I/O. They are replaced by the answer oracle. The only URL rule kept is that an empty host cannot be reached. The client rejects such a URL before any I/O. The model still logs that attempt and uses up one oracle answer for it, which is why the ticks after discovery are counted from one answer later when discovery probed.
- Real time (emulator.go:135-148): the timer, the ticker and the race between them are replaced by `ticks`, the number of probes the loop makes before it gives up. `ticks` is a free parameter. 5000 / 200 = 25 ticks (`MaxProbes`) fit in the deadline. The loop can probe more often than that: after the deadline, `select` picks at random between the expired context and a pending tick (emulator.go:139-147). A slow probe (up to 200 ms, emulator.go:159) usually leaves a tick pending, so probing can go on, and can succeed, past the deadline.
- `bufio.Scanner` (emulator.go:111-119): the output arrives as a sequence of lines, plus a flag for a read error after them. Line splitting and buffer limits are not modelled.
- The process-global `os.Getenv`/`Setenv`/`Unsetenv` become the environment map held in the state.
- The text of error messages (emulator.go:171) is reduced to an `Error` value.
- Emulator.New: returns the final state even on failure, where Go returns a nil handle.
- Emulator.Start: the log bound is stated in terms of `ticks`. No bound on `ticks` itself is promised, because the race after the deadline does not give one. The bound of `MaxProbes` + 3 requests holds only for runs with at most `MaxProbes` ticks.

=== FILE: emulator.dfy ===
/**
  The emulator handle and the operations that start, reset and close the
  Datastore emulator, as a functional state machine.

  The process environment is an explicit map, the emulator's HTTP answers
  are an oracle consumed one answer per request, every request is recorded
  in a log and the emulator processes launched are counted. Waiting for the
  emulator to come up is counted in ticks of the polling clock.
 */
module Emulator {
  import opened EnvInit

  /** Overall startup deadline and polling period, in milliseconds. */
  const TimeoutMs: nat := 5000
  const PollingRateMs: nat := 200

  /**
    The number of polling ticks that fit in the startup deadline. The loop
    can probe more often than this, because after the deadline a pending
    tick may still win the race against it.
   */
  const MaxProbes: nat := TimeoutMs / PollingRateMs

  const ResetEndpoint := "/reset"
  const ShutdownEndpoint := "/shutdown"
  const HealthcheckEndpoint := ""

  /** Read by discovery. */
  const HostVar := "DATASTORE_HOST"
  /** Read by discovery, published and cleared. */
  const ProjectVar := "DATASTORE_PROJECT_ID"
  /** Published and cleared. */
  const EmulatorHostVar := "DATASTORE_EMULATOR_HOST"

  type Env = map<string, string>

  datatype Method = Get | Post

  /** One HTTP request sent to the emulator. */
  datatype Request = Request(verb: Method, host: string, path: string)

  /** What the emulator answers to one request. */
  datatype Response = Status(code: int) | Unreachable

  datatype Error =
    | LaunchFailed
    | InitRunFailed
    | ScanFailed
    | StatusError(code: int)
    | TransportError
    | DeadlineExceeded

  /** Go's `error` result: nil or an error. */
  datatype Outcome = Ok | Err(error: Error)

  datatype Handle = Handle(host: string, projectID: string, stopOnClose: bool)

  /**
    The handle, the process environment, the answers still to come, the
    requests sent so far and the number of emulator processes launched.
   */
  datatype State = State(handle: Handle, env: Env, net: seq<Response>, log: seq<Request>, launches: nat)

  datatype Step = Step(outcome: Outcome, st: State)

  datatype Check = Check(ok: bool, st: State)

  /** What running `env-init` produced: whether it ran, the lines read, whether reading them failed. */
  datatype InitOutput = InitOutput(runOk: bool, lines: seq<string>, scanErr: bool)

  /** Whether the emulator process could be started, and its `env-init` output. */
  datatype Launcher = Launcher(startOk: bool, init: InitOutput)

  /** The answer to the `i`-th request from now; past the end of the oracle nothing answers. */
  function Answer(net: seq<Response>, i: nat): Response {
    if i < |net| then net[i] else Unreachable
  }

  /** The oracle after `n` requests. */
  function Drop(net: seq<Response>, n: nat): seq<Response> {
    if n <= |net| then net[n..] else []
  }

  /**
    The `i`-th request from `s` gets status 200. A handle with an empty host
    yields a URL without a scheme, which the HTTP client refuses outright.
   */
  predicate Answers200(s: State, i: nat) {
    s.handle.host != "" && Answer(s.net, i) == Status(200)
  }

  /** One of the `ticks` answers starting at position `from` is status 200. */
  predicate HealthyWithin(net: seq<Response>, from: nat, ticks: nat) {
    exists i :: from <= i < from + ticks && Answer(net, i) == Status(200)
  }

  /** `n` health probes sent to `host`. */
  function Probes(host: string, n: nat): (p: seq<Request>)
    ensures |p| == n
    ensures forall i :: 0 <= i < n ==> p[i] == Request(Get, host, HealthcheckEndpoint)
  {
    if n == 0 then [] else Probes(host, n - 1) + [Request(Get, host, HealthcheckEndpoint)]
  }

  /** The state after `n` health probes. */
  function AfterProbes(s: State, n: nat): State {
    s.(net := Drop(s.net, n), log := s.log + Probes(s.handle.host, n))
  }

  /** One request to the emulator: success exactly when the answer is status 200. */
  function Send(s: State, path: string, m: Method): (r: Step)
    ensures r.outcome == Ok <==> Answers200(s, 0)
    ensures s.handle.host != "" && Answer(s.net, 0).Status? && Answer(s.net, 0).code != 200
            ==> r.outcome == Err(StatusError(Answer(s.net, 0).code))
    ensures (s.handle.host == "" || Answer(s.net, 0).Unreachable?) ==> r.outcome == Err(TransportError)
    ensures r.st == s.(net := Drop(s.net, 1), log := s.log + [Request(m, s.handle.host, path)])
  {
    var answer := if s.handle.host == "" then Unreachable else Answer(s.net, 0);
    var outcome :=
      match answer
      case Unreachable => Err(TransportError)
      case Status(code) => if code == 200 then Ok else Err(StatusError(code));
    Step(outcome, s.(net := Drop(s.net, 1), log := s.log + [Request(m, s.handle.host, path)]))
  }

  function IsHealthy(s: State): (r: Check)
    ensures r.ok <==> Answers200(s, 0)
    ensures r.st == AfterProbes(s, 1)
  {
    var step := Send(s, HealthcheckEndpoint, Get);
    assert Probes(s.handle.host, 1) == [Request(Get, s.handle.host, HealthcheckEndpoint)];
    Check(step.outcome == Ok, step.st)
  }

  /** Both discovery variables are set, so discovery goes on to probe. */
  predicate Advertised(env: Env) {
    Lookup(env, HostVar) != "" && Lookup(env, ProjectVar) != ""
  }

  /**
    Discovery. The probe goes to the handle's current host: the discovered
    host is assigned only after the probe has succeeded.
   */
  function InstanceIsPresent(s: State): (r: Check)
    ensures r.ok <==> Advertised(s.env) && Answers200(s, 0)
    ensures r.ok ==> r.st.handle == s.handle.(host := Lookup(s.env, HostVar), projectID := Lookup(s.env, ProjectVar))
    ensures !r.ok ==> r.st.handle == s.handle
    ensures r.st.env == s.env && r.st.launches == s.launches
    ensures Advertised(s.env) ==> r.st.net == Drop(s.net, 1)
    ensures Advertised(s.env) ==> r.st.log == s.log + [Request(Get, s.handle.host, HealthcheckEndpoint)]
    ensures !Advertised(s.env) ==> r.st == s
  {
    var host := Lookup(s.env, HostVar);
    if host == "" then Check(false, s)
    else
      var projectID := Lookup(s.env, ProjectVar);
      if projectID == "" then Check(false, s)
      else
        var probe := IsHealthy(s);
        if !probe.ok then Check(false, probe.st)
        else Check(true, probe.st.(handle := probe.st.handle.(host := host, projectID := projectID)))
  }

  /** Asks the emulator to drop all of its in-memory data. */
  function Reset(s: State): (r: Step)
    ensures r.outcome == Ok <==> Answers200(s, 0)
    ensures r.st.log == s.log + [Request(Post, s.handle.host, ResetEndpoint)]
    ensures r.st.handle == s.handle && r.st.env == s.env && r.st.launches == s.launches
    ensures r.st.net == Drop(s.net, 1)
  {
    Send(s, ResetEndpoint, Post)
  }

  /** Every binding of `env` except those of `a` and `b` is also one of `env'`, and the converse. */
  ghost predicate SameExcept(env: Env, env': Env, a: string, b: string) {
    forall k :: k != a && k != b ==> (k in env' <==> k in env) && (k in env ==> env'[k] == env[k])
  }

  /**
    Teardown. A handle without `stopOnClose` changes nothing. One with it,
    whether or not its launch succeeded, clears the published variables
    and, if a probe to its current host is answered with 200, asks whatever
    answers there to shut down.
   */
  function Close(s: State): (r: Step)
    ensures !s.handle.stopOnClose ==> r == Step(Ok, s)
    ensures s.handle.stopOnClose ==>
      && EmulatorHostVar !in r.st.env && ProjectVar !in r.st.env
      && SameExcept(s.env, r.st.env, EmulatorHostVar, ProjectVar)
      && r.st.handle == s.handle
      && r.st.launches == s.launches
      && r.st.net == Drop(s.net, if Answers200(s, 0) then 2 else 1)
    ensures s.handle.stopOnClose && !Answers200(s, 0) ==>
      && r.outcome == Ok
      && r.st.log == s.log + [Request(Get, s.handle.host, HealthcheckEndpoint)]
    ensures s.handle.stopOnClose && Answers200(s, 0) ==>
      && (r.outcome == Ok <==> Answers200(s, 1))
      && r.st.log == s.log + [Request(Get, s.handle.host, HealthcheckEndpoint), Request(Post, s.handle.host, ShutdownEndpoint)]
  {
    if !s.handle.stopOnClose then Step(Ok, s)
    else
      var cleared := s.(env := s.env - {EmulatorHostVar, ProjectVar});
      var probe := IsHealthy(cleared);
      if probe.ok then Send(probe.st, ShutdownEndpoint, Post)
      else Step(Ok, probe.st)
  }

  /**
    Reads the `env-init` output, takes the host and project from it into the
    handle and publishes the emulator host and project in the environment.
    A failed run or a failed read leaves the state as it was.
   */
  function InitEnv(s: State, out: InitOutput): (r: Step)
    requires out.runOk ==> AllWellFormed(out.lines)
    ensures !out.runOk ==> r == Step(Err(InitRunFailed), s)
    ensures out.runOk && out.scanErr ==> r == Step(Err(ScanFailed), s)
    ensures out.runOk && !out.scanErr ==>
      && r.outcome == Ok
      && Yields(out.lines, HostVar, r.st.handle.host)
      && Yields(out.lines, ProjectVar, r.st.handle.projectID)
      && r.st.handle.stopOnClose == s.handle.stopOnClose
      && EmulatorHostVar in r.st.env && Yields(out.lines, EmulatorHostVar, r.st.env[EmulatorHostVar])
      && ProjectVar in r.st.env && Yields(out.lines, ProjectVar, r.st.env[ProjectVar])
      && SameExcept(s.env, r.st.env, EmulatorHostVar, ProjectVar)
      && r.st.net == s.net && r.st.log == s.log
    ensures r.st.launches == s.launches
  {
    if !out.runOk then Step(Err(InitRunFailed), s)
    else
      var parsed := ParseLines(out.lines);
      if out.scanErr then Step(Err(ScanFailed), s)
      else
        var handle := s.handle.(host := Lookup(parsed, HostVar), projectID := Lookup(parsed, ProjectVar));
        var env := s.env[EmulatorHostVar := Lookup(parsed, EmulatorHostVar)][ProjectVar := Lookup(parsed, ProjectVar)];
        Step(Ok, s.(handle := handle, env := env))
  }

  /**
    The polling loop, one health probe per tick, `ticks` being the number
    of ticks that fire before the deadline. It stops at the first healthy
    probe and otherwise runs out of time.
   */
  function ConfirmStartup(s: State, ticks: nat): (r: Step)
    ensures r.outcome == Ok <==> exists i :: 0 <= i < ticks && Answers200(s, i)
    ensures r.outcome != Ok ==> r == Step(Err(DeadlineExceeded), AfterProbes(s, ticks))
    ensures r.st.handle == s.handle && r.st.env == s.env && r.st.launches == s.launches
    ensures |s.log| <= |r.st.log|
    ensures r.outcome == Ok ==>
      var n := |r.st.log| - |s.log|;
      && 0 < n <= ticks
      && r.st == AfterProbes(s, n)
      && Answers200(s, n - 1)
      && forall i :: 0 <= i < n - 1 ==> !Answers200(s, i)
    decreases ticks
  {
    if ticks == 0 then Step(Err(DeadlineExceeded), AfterProbes(s, 0))
    else
      var probe := IsHealthy(s);
      if probe.ok then Step(Ok, probe.st)
      else
        var r := ConfirmStartup(probe.st, ticks - 1);
        ProbesCompose(s, ticks - 1);
        ProbesCompose(s, |r.st.log| - |probe.st.log|);
        r
  }

  /** Probing once and then `n` times is probing `n + 1` times. */
  lemma ProbesCompose(s: State, n: nat)
    ensures AfterProbes(AfterProbes(s, 1), n) == AfterProbes(s, n + 1)
    ensures forall i: nat :: Answers200(AfterProbes(s, 1), i) ==> Answers200(s, i + 1)
    ensures forall i: nat :: 0 < i ==> (Answers200(s, i) <==> Answers200(AfterProbes(s, 1), i - 1))
  {
    ProbesPrepend(s.handle.host, n);
  }

  lemma {:induction false} ProbesPrepend(host: string, n: nat)
    ensures Probes(host, 1) + Probes(host, n) == Probes(host, n + 1)
  {
    if n > 0 {
      ProbesPrepend(host, n - 1);
    }
  }

  /** Discovery adopts: both variables are set and the probe to the handle's current host succeeds. */
  predicate Adopts(s: State) {
    Advertised(s.env) && Answers200(s, 0)
  }

  /**
    What a teardown by `Close` sends for an owning handle at `host`: a health
    probe and, when it is answered with 200, a shutdown request.
   */
  function TeardownRequests(host: string, shutdown: bool): seq<Request> {
    [Request(Get, host, HealthcheckEndpoint)] + (if shutdown then [Request(Post, host, ShutdownEndpoint)] else [])
  }

  /**
    The wait for a freshly launched emulator, torn down when the deadline
    passes without a healthy answer.
   */
  function AwaitOrClose(s: State, ticks: nat): (r: Step)
    requires s.handle.stopOnClose
    ensures s.log <= r.st.log && |r.st.log| <= |s.log| + ticks + 2
    ensures r.st.handle == s.handle && r.st.launches == s.launches
    ensures r.outcome == Ok <==> s.handle.host != "" && HealthyWithin(s.net, 0, ticks)
    ensures r.outcome == Ok ==> r.st.env == s.env
    ensures r.outcome != Ok ==>
      && r.outcome == Err(DeadlineExceeded)
      && EmulatorHostVar !in r.st.env && ProjectVar !in r.st.env
      && SameExcept(s.env, r.st.env, EmulatorHostVar, ProjectVar)
    ensures r.outcome != Ok ==>
      r.st.log == s.log + Probes(s.handle.host, ticks) + TeardownRequests(s.handle.host, Answers200(s, ticks))
  {
    var confirm := ConfirmStartup(s, ticks);
    assert forall i :: 0 <= i < ticks && Answer(s.net, i) == Status(200) ==> (Answers200(s, i) <==> s.handle.host != "");
    if confirm.outcome == Ok then confirm
    else Step(confirm.outcome, Close(confirm.st).st)
  }

  /**
    What an owning handle does once the emulator process is running: read
    the `env-init` output, wait for the emulator to answer and, on either
    failure, tear down while keeping the original error.
   */
  function Boot(s: State, out: InitOutput, ticks: nat): (r: Step)
    requires s.handle.stopOnClose
    requires out.runOk ==> AllWellFormed(out.lines)
    ensures s.log <= r.st.log && |r.st.log| <= |s.log| + ticks + 2
    ensures r.st.launches == s.launches
    ensures r.st.handle.stopOnClose
    ensures !out.runOk ==> r.outcome == Err(InitRunFailed)
    ensures out.runOk && out.scanErr ==> r.outcome == Err(ScanFailed)
    ensures out.runOk && !out.scanErr ==>
      && Yields(out.lines, HostVar, r.st.handle.host)
      && Yields(out.lines, ProjectVar, r.st.handle.projectID)
      && (r.outcome == Ok <==> r.st.handle.host != "" && HealthyWithin(s.net, 0, ticks))
      && (r.outcome != Ok ==> r.outcome == Err(DeadlineExceeded))
    ensures r.outcome != Ok ==>
      && EmulatorHostVar !in r.st.env && ProjectVar !in r.st.env
      && SameExcept(s.env, r.st.env, EmulatorHostVar, ProjectVar)
    ensures !out.runOk || out.scanErr ==>
      r.st.log == s.log + TeardownRequests(s.handle.host, Answers200(s, 0))
    ensures out.runOk && !out.scanErr && r.outcome != Ok ==>
      var booted := s.(handle := r.st.handle);
      r.st.log == s.log + Probes(booted.handle.host, ticks) + TeardownRequests(booted.handle.host, Answers200(booted, ticks))
    ensures out.runOk && !out.scanErr && r.outcome == Ok ==>
      && EmulatorHostVar in r.st.env && Yields(out.lines, EmulatorHostVar, r.st.env[EmulatorHostVar])
      && ProjectVar in r.st.env && Yields(out.lines, ProjectVar, r.st.env[ProjectVar])
      && SameExcept(s.env, r.st.env, EmulatorHostVar, ProjectVar)
  {
    var init := InitEnv(s, out);
    if init.outcome != Ok then Step(init.outcome, Close(init.st).st)
    else AwaitOrClose(init.st, ticks)
  }

  /**
    Startup: adopt what discovery finds at the handle's current host, or
    else set `stopOnClose`, launch the emulator and boot it. `ticks` is the
    number of polling ticks that fire before the polling loop stops.
   */
  function Start(s: State, l: Launcher, ticks: nat): (r: Step)
    requires l.startOk && l.init.runOk ==> AllWellFormed(l.init.lines)
    ensures s.log <= r.st.log && |r.st.log| <= |s.log| + 1 + ticks + 2
    ensures ticks <= MaxProbes ==> |r.st.log| <= |s.log| + 1 + MaxProbes + 2
    ensures Adopts(s) ==>
      && r.outcome == Ok
      && r.st.handle == s.handle.(host := Lookup(s.env, HostVar), projectID := Lookup(s.env, ProjectVar))
      && r.st.env == s.env
      && r.st.launches == s.launches
    ensures !Adopts(s) ==> r.st.handle.stopOnClose
    ensures !Adopts(s) ==> r.st.launches == if l.startOk then s.launches + 1 else s.launches
    ensures !Adopts(s) && !l.startOk ==> r.outcome == Err(LaunchFailed) && r.st.env == s.env
  {
    var discovery := InstanceIsPresent(s);
    if discovery.ok then Step(Ok, discovery.st)
    else
      var owned := discovery.st.(handle := discovery.st.handle.(stopOnClose := true));
      if !l.startOk then Step(Err(LaunchFailed), owned)
      else
        Boot(owned.(launches := owned.launches + 1), l.init, ticks)
  }

  /** A handle that has not been started yet. */
  const Fresh := Handle("", "", false)

  /**
    `New`: start from a fresh handle. Discovery probes with the fresh
    handle's empty host, so it never adopts: the result always owns the
    emulator, and a process was launched exactly when launching succeeded.
   */
  function New(env: Env, net: seq<Response>, l: Launcher, ticks: nat): (r: Step)
    requires l.startOk && l.init.runOk ==> AllWellFormed(l.init.lines)
    ensures r.st.handle.stopOnClose
    ensures r.st.launches == if l.startOk then 1 else 0
    ensures r.outcome == Ok ==> r.st.launches == 1 && r.st.handle.host != ""
  {
    Start(State(Fresh, env, net, [], 0), l, ticks)
  }
}

=== FILE: envinit.dfy ===
/**
  The parser for the output of the emulator's `env-init` subcommand. Each
  line is cut at spaces, the second token is cut at `=`, and the first two
  pieces become a key and a value; the bindings of all lines are collected
  into a map, later lines overwriting earlier ones.
 */
module EnvInit {
  import opened Text

  datatype Binding = Binding(key: string, value: string)

  /**
    The lines the parser can read without an index fault: a second
    space-separated token exists and holds an `=`.
   */
  predicate WellFormedLine(line: string) {
    var tokens := Split(line, ' ');
    |tokens| >= 2 && '=' in tokens[1]
  }

  predicate AllWellFormed(lines: seq<string>) {
    forall i :: 0 <= i < |lines| ==> WellFormedLine(lines[i])
  }

  /** Reading a key absent from a map yields the empty string. */
  function Lookup(m: map<string, string>, k: string): string {
    if k in m then m[k] else ""
  }

  /**
    The binding of one line. The second token starts with `key=value`, and
    what follows it is either nothing or a further `=`: a value holding `=`
    is cut short at it.
   */
  function ParseLine(line: string): (b: Binding)
    requires WellFormedLine(line)
    ensures '=' !in b.key && '=' !in b.value
    ensures ' ' !in b.key && ' ' !in b.value
    ensures var t := Split(line, ' ')[1];
            && b.key + ['='] + b.value <= t
            && (|t| == |b.key| + 1 + |b.value| || t[|b.key| + 1 + |b.value|] == '=')
  {
    var t := Split(line, ' ')[1];
    var kv := Split(t, '=');
    assert t == kv[0] + ['='] + Join(kv[1..], '=');
    assert Join(kv[1..], '=') == kv[1] || Join(kv[1..], '=') == kv[1] + ['='] + Join(kv[2..], '=');
    AbsentFromPieces(kv, '=', ' ');
    Binding(kv[0], kv[1])
  }

  /**
    `v` is what the parse yields for `k`: the value of the last line whose
    key is `k`, or the empty string when no line has that key.
   */
  predicate Yields(lines: seq<string>, k: string, v: string)
    requires AllWellFormed(lines)
  {
    || (exists i :: 0 <= i < |lines| && ParseLine(lines[i]) == Binding(k, v)
                    && forall j :: i < j < |lines| ==> ParseLine(lines[j]).key != k)
    || (v == "" && forall i :: 0 <= i < |lines| ==> ParseLine(lines[i]).key != k)
  }

  /**
    The map the lines build. Each key reads as what `Yields` gives for it,
    and `YieldsUnique` shows that this fixes the map's contents.
   */
  function ParseLines(lines: seq<string>): (env: map<string, string>)
    requires AllWellFormed(lines)
    ensures forall k :: k in env <==> exists i :: 0 <= i < |lines| && ParseLine(lines[i]).key == k
    ensures forall k :: Yields(lines, k, Lookup(env, k))
  {
    if |lines| == 0 then
      map[]
    else
      var prefix := lines[..|lines| - 1];
      var b := ParseLine(lines[|lines| - 1]);
      assert lines == prefix + [lines[|lines| - 1]];
      ParseStep(prefix, lines[|lines| - 1], ParseLines(prefix));
      ParseLines(prefix)[b.key := b.value]
  }

  /** One more line binds its key to its value and leaves every other key as it was. */
  lemma ParseStep(prefix: seq<string>, line: string, m: map<string, string>)
    requires AllWellFormed(prefix) && WellFormedLine(line)
    requires forall k :: k in m <==> exists i :: 0 <= i < |prefix| && ParseLine(prefix[i]).key == k
    requires forall k :: Yields(prefix, k, Lookup(m, k))
    ensures AllWellFormed(prefix + [line])
    ensures var b := ParseLine(line);
            var lines := prefix + [line];
            var m' := m[b.key := b.value];
            && (forall k :: k in m' <==> exists i :: 0 <= i < |lines| && ParseLine(lines[i]).key == k)
            && (forall k :: Yields(lines, k, Lookup(m', k)))
  {
    var b := ParseLine(line);
    var lines := prefix + [line];
    var m' := m[b.key := b.value];
    assert AllWellFormed(lines) by {
      assert forall i :: 0 <= i < |prefix| ==> lines[i] == prefix[i];
    }
    forall k
      ensures k in m' <==> exists i :: 0 <= i < |lines| && ParseLine(lines[i]).key == k
    {
      KeyStep(prefix, line, k);
    }
    forall k
      ensures Yields(lines, k, Lookup(m', k))
    {
      if k == b.key {
        YieldsLast(prefix, line);
      } else {
        YieldsKept(prefix, line, k, Lookup(m, k));
      }
    }
  }

  lemma KeyStep(prefix: seq<string>, line: string, k: string)
    requires AllWellFormed(prefix) && WellFormedLine(line) && AllWellFormed(prefix + [line])
    ensures (exists i :: 0 <= i < |prefix + [line]| && ParseLine((prefix + [line])[i]).key == k)
            <==> (k == ParseLine(line).key || exists i :: 0 <= i < |prefix| && ParseLine(prefix[i]).key == k)
  {
    var lines := prefix + [line];
    assert lines[|prefix|] == line;
    if i :| 0 <= i < |prefix| && ParseLine(prefix[i]).key == k {
      assert lines[i] == prefix[i];
    }
    if i :| 0 <= i < |lines| && ParseLine(lines[i]).key == k {
      if i < |prefix| {
        assert lines[i] == prefix[i];
      }
    }
  }

  lemma YieldsLast(prefix: seq<string>, line: string)
    requires AllWellFormed(prefix) && WellFormedLine(line) && AllWellFormed(prefix + [line])
    ensures Yields(prefix + [line], ParseLine(line).key, ParseLine(line).value)
  {
    var lines := prefix + [line];
    assert lines[|prefix|] == line;
  }

  lemma YieldsKept(prefix: seq<string>, line: string, k: string, v: string)
    requires AllWellFormed(prefix) && WellFormedLine(line) && AllWellFormed(prefix + [line])
    requires ParseLine(line).key != k
    requires Yields(prefix, k, v)
    ensures Yields(prefix + [line], k, v)
  {
    var lines := prefix + [line];
    assert lines[|prefix|] == line;
    if i :| 0 <= i < |prefix| && ParseLine(prefix[i]) == Binding(k, v)
            && forall j :: i < j < |prefix| ==> ParseLine(prefix[j]).key != k {
      assert lines[i] == prefix[i];
      forall j | i < j < |lines| ensures ParseLine(lines[j]).key != k {
        if j < |prefix| {
          assert lines[j] == prefix[j];
        }
      }
    } else {
      forall j | 0 <= j < |lines| ensures ParseLine(lines[j]).key != k {
        if j < |prefix| {
          assert lines[j] == prefix[j];
        }
      }
    }
  }

  /** The parse yields at most one value per key. */
  lemma YieldsUnique(lines: seq<string>, k: string, v1: string, v2: string)
    requires AllWellFormed(lines)
    requires Yields(lines, k, v1) && Yields(lines, k, v2)
    ensures v1 == v2
  {
    if i1 :| 0 <= i1 < |lines| && ParseLine(lines[i1]) == Binding(k, v1)
             && forall j :: i1 < j < |lines| ==> ParseLine(lines[j]).key != k {
      var i2 :| 0 <= i2 < |lines| && ParseLine(lines[i2]) == Binding(k, v2)
                && forall j :: i2 < j < |lines| ==> ParseLine(lines[j]).key != k;
      assert !(i1 < i2) && !(i2 < i1);
    }
  }

  /**
    A line is the one that counts for its key when no later line has that
    key: it overwrites whatever earlier lines said.
   */
  lemma LastLineWins(before: seq<string>, x: string, after: seq<string>)
    requires AllWellFormed(before) && WellFormedLine(x) && AllWellFormed(after)
    requires forall j :: 0 <= j < |after| ==> ParseLine(after[j]).key != ParseLine(x).key
    ensures AllWellFormed(before + [x] + after)
    ensures Lookup(ParseLines(before + [x] + after), ParseLine(x).key) == ParseLine(x).value
  {
    var b := ParseLine(x);
    assert AllWellFormed([x]);
    AllWellFormedAppend(before, [x]);
    ParseLinesSnoc(before, x);
    var front := ParseLines(before + [x]);
    assert front[b.key] == b.value;
    var back := ParseLines(after);
    assert b.key !in back;
    ParseLinesAppend(before + [x], after);
    assert (front + back)[b.key] == b.value;
  }

  /** The second space-separated token of `tok t rest`. */
  lemma SecondToken(tok: string, t: string, rest: string)
    requires ' ' !in tok && ' ' !in t
    requires rest == [] || rest[0] == ' '
    ensures |Split(tok + [' '] + t + rest, ' ')| >= 2
    ensures Split(tok + [' '] + t + rest, ' ')[1] == t
  {
    assert tok + [' '] + t + rest == tok + [' '] + (t + rest);
    SplitAtFirst(tok, ' ', t + rest);
    SplitHead(t, ' ', rest);
  }

  /** The first two `=`-separated pieces of `k=v more`. */
  lemma FirstTwoPieces(k: string, v: string, more: string)
    requires '=' !in k && '=' !in v
    requires more == [] || more[0] == '='
    ensures |Split(k + ['='] + v + more, '=')| >= 2
    ensures Split(k + ['='] + v + more, '=')[0] == k
    ensures Split(k + ['='] + v + more, '=')[1] == v
  {
    assert k + ['='] + v + more == k + ['='] + (v + more);
    SplitAtFirst(k, '=', v + more);
    SplitHead(v, '=', more);
  }

  /**
    A line `<tok> K=V`, optionally followed by `=...` inside the second token
    and by further space-separated tokens, binds `K` to `V`.
   */
  lemma ParseFormattedLine(tok: string, k: string, v: string, more: string, rest: string)
    requires ' ' !in tok
    requires ' ' !in k && '=' !in k && ' ' !in v && '=' !in v
    requires ' ' !in more && (more == [] || more[0] == '=')
    requires rest == [] || rest[0] == ' '
    ensures WellFormedLine(tok + [' '] + (k + ['='] + v + more) + rest)
    ensures ParseLine(tok + [' '] + (k + ['='] + v + more) + rest) == Binding(k, v)
  {
    var t := k + ['='] + v + more;
    assert ' ' !in t;
    SecondToken(tok, t, rest);
    FirstTwoPieces(k, v, more);
  }

  lemma AllWellFormedAppend(a: seq<string>, b: seq<string>)
    requires AllWellFormed(a) && AllWellFormed(b)
    ensures AllWellFormed(a + b)
  {
    forall i | 0 <= i < |a + b| ensures WellFormedLine((a + b)[i]) {
      if i < |a| {
        assert (a + b)[i] == a[i];
      } else {
        assert (a + b)[i] == b[i - |a|];
      }
    }
  }

  /** Parsing a concatenation merges the two parses, the later lines winning. */
  lemma {:induction false} ParseLinesAppend(a: seq<string>, b: seq<string>)
    requires AllWellFormed(a) && AllWellFormed(b)
    ensures AllWellFormed(a + b)
    ensures ParseLines(a + b) == ParseLines(a) + ParseLines(b)
  {
    AllWellFormedAppend(a, b);
    if |b| == 0 {
      assert a + b == a;
    } else {
      var b', x := b[..|b| - 1], b[|b| - 1];
      assert b == b' + [x];
      ParseLinesSnoc(b', x);
      assert a + b == (a + b') + [x];
      ParseLinesSnoc(a + b', x);
      ParseLinesAppend(a, b');
      var p := ParseLine(x);
      UpdateAfterUnion(ParseLines(a), ParseLines(b'), p.key, p.value);
    }
  }

  /** Unfolding `ParseLines` at its last line. */
  lemma ParseLinesSnoc(lines: seq<string>, x: string)
    requires AllWellFormed(lines + [x])
    ensures AllWellFormed(lines) && WellFormedLine(x)
    ensures ParseLines(lines + [x]) == ParseLines(lines)[ParseLine(x).key := ParseLine(x).value]
  {
    var all := lines + [x];
    assert all[..|all| - 1] == lines;
    assert all[|all| - 1] == x;
    assert forall i :: 0 <= i < |lines| ==> lines[i] == all[i];
  }

  lemma UpdateAfterUnion(m: map<string, string>, n: map<string, string>, k: string, v: string)
    ensures (m + n)[k := v] == m + n[k := v]
  {
  }
}

=== FILE: intended.dfy ===
/**
  Startup as its documentation describes it. Discovery probes the host it
  found in the environment, so a running instance is actually reused.
  The handle claims ownership only once its own launch has succeeded, so
  closing it after a failed launch touches nothing. Everything after the
  launch is the same `Boot` as in `Emulator`. `CorrectedStart` and
  `CorrectedNew` stand beside the source's `Start` and `New`.
 */
module Intended {
  import opened EnvInit
  import opened Emulator
  import opened Lifecycle

  /** Discovery finds a healthy instance at the advertised host. */
  predicate Finds(s: State) {
    Advertised(s.env) && Answer(s.net, 0) == Status(200)
  }

  /**
    Discovery that probes the advertised host. Host and project are taken
    into the handle only when that probe succeeds.
   */
  function Discover(s: State): (r: Check)
    ensures r.ok <==> Finds(s)
    ensures r.ok ==> r.st.handle == s.handle.(host := Lookup(s.env, HostVar), projectID := Lookup(s.env, ProjectVar))
    ensures !r.ok ==> r.st.handle == s.handle
    ensures r.st.env == s.env && r.st.launches == s.launches
    ensures Advertised(s.env) ==>
      && r.st.net == Drop(s.net, 1)
      && r.st.log == s.log + [Request(Get, Lookup(s.env, HostVar), HealthcheckEndpoint)]
    ensures !Advertised(s.env) ==> r.st == s
  {
    var host := Lookup(s.env, HostVar);
    var projectID := Lookup(s.env, ProjectVar);
    if host == "" || projectID == "" then Check(false, s)
    else
      var probe := IsHealthy(s.(handle := s.handle.(host := host)));
      if !probe.ok then Check(false, probe.st.(handle := s.handle))
      else Check(true, probe.st.(handle := s.handle.(host := host, projectID := projectID)))
  }

  /**
    Startup that adopts what `Discover` finds and claims ownership only
    after a successful launch.
   */
  function CorrectedStart(s: State, l: Launcher, ticks: nat): (r: Step)
    requires l.startOk && l.init.runOk ==> AllWellFormed(l.init.lines)
    ensures Finds(s) ==>
      && r.outcome == Ok
      && r.st.handle == s.handle.(host := Lookup(s.env, HostVar), projectID := Lookup(s.env, ProjectVar))
      && r.st.env == s.env
      && r.st.launches == s.launches
    ensures !Finds(s) && !l.startOk ==>
      && r.outcome == Err(LaunchFailed)
      && r.st.handle == s.handle && r.st.env == s.env && r.st.launches == s.launches
    ensures !Finds(s) && l.startOk ==> r.st.handle.stopOnClose && r.st.launches == s.launches + 1
  {
    var discovery := Discover(s);
    if discovery.ok then Step(Ok, discovery.st)
    else if !l.startOk then Step(Err(LaunchFailed), discovery.st)
    else
      var owned := discovery.st.(handle := discovery.st.handle.(stopOnClose := true), launches := discovery.st.launches + 1);
      Boot(owned, l.init, ticks)
  }

  /**
    `New` on top of the corrected startup: a healthy advertised instance is
    adopted without a launch, and the handle then does not own it.
   */
  function CorrectedNew(env: Env, net: seq<Response>, l: Launcher, ticks: nat): (r: Step)
    requires l.startOk && l.init.runOk ==> AllWellFormed(l.init.lines)
    ensures Advertised(env) && Answer(net, 0) == Status(200) ==>
      && r.outcome == Ok
      && r.st.launches == 0
      && !r.st.handle.stopOnClose
      && r.st.handle.host == Lookup(env, HostVar)
      && r.st.handle.projectID == Lookup(env, ProjectVar)
    ensures r.st.launches <= 1
    ensures r.st.handle.stopOnClose <==> r.st.launches == 1
  {
    CorrectedStart(State(Fresh, env, net, [], 0), l, ticks)
  }

  /**
    The ownership rule the documentation of `Close` promises: starting from
    a handle that owns nothing, a later close clears the environment or
    sends a shutdown request only if this handle launched the emulator.
   */
  lemma OnlyLauncherTearsDown(s: State, l: Launcher, ticks: nat)
    requires l.startOk && l.init.runOk ==> AllWellFormed(l.init.lines)
    requires !s.handle.stopOnClose
    ensures var a := CorrectedStart(s, l, ticks);
      var c := Close(a.st);
      (c.st.env != a.st.env || ShutdownIn(c.st.log[|a.st.log|..])) ==>
        && !Finds(s)
        && a.st.handle.stopOnClose
        && a.st.launches == s.launches + 1
  {
    var a := CorrectedStart(s, l, ticks);
    var c := Close(a.st);
    if !a.st.handle.stopOnClose {
      assert c == Step(Ok, a.st);
      assert c.st.log[|a.st.log|..] == [];
    }
  }

  /**
    Where the two startups part: for a healthy advertised instance and a
    working launcher, the source's `New` launches a process of its own
    while the corrected one reuses the running instance.
   */
  lemma NewReusesRunningInstance(env: Env, net: seq<Response>, l: Launcher, ticks: nat)
    requires l.startOk && l.init.runOk ==> AllWellFormed(l.init.lines)
    requires Advertised(env) && Answer(net, 0) == Status(200) && l.startOk
    ensures New(env, net, l, ticks).st.launches == 1
    ensures CorrectedNew(env, net, l, ticks).st.launches == 0
    ensures CorrectedNew(env, net, l, ticks).outcome == Ok
  {
    NewIgnoresRunningInstance(env, net, l, ticks);
  }
}

=== FILE: lifecycle.dfy ===
/**
  Properties of whole startup and teardown sequences: what `Start` does
  after a launch, and that only the handle that took ownership ever tears
  the emulator down.
 */
module Lifecycle {
  import opened EnvInit
  import opened Emulator

  /** The state `Boot` starts from once discovery has failed and the launch succeeded. */
  function Launched(s: State): (t: State)
    requires !Adopts(s)
    ensures t.handle == s.handle.(stopOnClose := true)
    ensures t.env == s.env && t.launches == s.launches + 1
    ensures t.net == Drop(s.net, if Advertised(s.env) then 1 else 0)
    ensures t.log == s.log + if Advertised(s.env) then [Request(Get, s.handle.host, HealthcheckEndpoint)] else []
  {
    var discovery := InstanceIsPresent(s);
    discovery.st.(handle := discovery.st.handle.(stopOnClose := true), launches := discovery.st.launches + 1)
  }

  lemma StartBoots(s: State, l: Launcher, ticks: nat)
    requires l.startOk && l.init.runOk ==> AllWellFormed(l.init.lines)
    requires !Adopts(s) && l.startOk
    ensures Start(s, l, ticks) == Boot(Launched(s), l.init, ticks)
  {
  }

  /** The `i`-th answer after discovery, counted from the first polling tick. */
  lemma AnswersAfterDiscovery(s: State)
    requires !Adopts(s)
    ensures var skip := if Advertised(s.env) then 1 else 0;
            forall i: nat :: Answer(Launched(s).net, i) == Answer(s.net, skip + i)
  {
  }

  /**
    A failure after the launch returns the error that caused it, and the
    teardown run on that path has cleared the published variables. That
    teardown probed the handle's host and, when the probe got 200, asked
    the emulator to shut down: after the `env-init` failure right after
    discovery, after the deadline failure once the `ticks` probes are done.
   */
  lemma StartFailureAfterLaunch(s: State, l: Launcher, ticks: nat)
    requires l.startOk && l.init.runOk ==> AllWellFormed(l.init.lines)
    requires !Adopts(s) && l.startOk
    ensures var r := Start(s, l, ticks);
      && (!l.init.runOk ==> r.outcome == Err(InitRunFailed))
      && (l.init.runOk && l.init.scanErr ==> r.outcome == Err(ScanFailed))
      && (l.init.runOk && !l.init.scanErr && r.outcome != Ok ==> r.outcome == Err(DeadlineExceeded))
      && (r.outcome != Ok ==>
            && EmulatorHostVar !in r.st.env && ProjectVar !in r.st.env
            && SameExcept(s.env, r.st.env, EmulatorHostVar, ProjectVar))
    ensures var r := Start(s, l, ticks);
      var t := Launched(s);
      && (!l.init.runOk || l.init.scanErr ==>
            r.st.log == t.log + TeardownRequests(r.st.handle.host, Answers200(t, 0)))
      && (l.init.runOk && !l.init.scanErr && r.outcome != Ok ==>
            var booted := t.(handle := r.st.handle);
            r.st.log == t.log + Probes(booted.handle.host, ticks) + TeardownRequests(booted.handle.host, Answers200(booted, ticks)))
  {
    StartBoots(s, l, ticks);
  }

  /**
    After a launch with readable `env-init` output, the handle carries the
    host and project parsed from it, whether or not startup succeeds.
   */
  lemma StartTakesParsedHandle(s: State, l: Launcher, ticks: nat)
    requires l.startOk && l.init.runOk && !l.init.scanErr && AllWellFormed(l.init.lines)
    requires !Adopts(s)
    ensures var r := Start(s, l, ticks);
      && Yields(l.init.lines, HostVar, r.st.handle.host)
      && Yields(l.init.lines, ProjectVar, r.st.handle.projectID)
  {
    StartBoots(s, l, ticks);
    var b := Boot(Launched(s), l.init, ticks);
    assert Yields(l.init.lines, HostVar, b.st.handle.host);
  }

  /**
    After a launch with readable `env-init` output, startup succeeds exactly
    when the parsed host is non-empty and one of the `ticks` polling probes
    after discovery gets status 200.
   */
  lemma StartConfirmsLaunch(s: State, l: Launcher, ticks: nat)
    requires l.startOk && l.init.runOk && !l.init.scanErr && AllWellFormed(l.init.lines)
    requires !Adopts(s)
    ensures var r := Start(s, l, ticks);
      var skip := if Advertised(s.env) then 1 else 0;
      r.outcome == Ok <==> r.st.handle.host != "" && HealthyWithin(s.net, skip, ticks)
  {
    var skip := if Advertised(s.env) then 1 else 0;
    var t := Launched(s);
    StartBoots(s, l, ticks);
    var b := Boot(t, l.init, ticks);
    assert b.outcome == Ok <==> b.st.handle.host != "" && HealthyWithin(t.net, 0, ticks);
    AnswersAfterDiscovery(s);
    HealthyTickShift(s.net, t.net, skip, ticks);
  }

  /** Counting ticks from a later point of the oracle shifts the healthy tick by the same amount. */
  lemma HealthyTickShift(net: seq<Response>, later: seq<Response>, skip: nat, ticks: nat)
    requires forall i: nat :: Answer(later, i) == Answer(net, skip + i)
    ensures HealthyWithin(later, 0, ticks) <==> HealthyWithin(net, skip, ticks)
  {
    if i :| skip <= i < skip + ticks && Answer(net, i) == Status(200) {
      assert Answer(later, i - skip) == Status(200);
    }
  }

  /** A successful launch publishes the emulator host and project it read from `env-init`. */
  lemma StartPublishes(s: State, l: Launcher, ticks: nat)
    requires l.startOk && l.init.runOk && !l.init.scanErr && AllWellFormed(l.init.lines)
    requires !Adopts(s) && Start(s, l, ticks).outcome == Ok
    ensures var env := Start(s, l, ticks).st.env;
      && EmulatorHostVar in env && Yields(l.init.lines, EmulatorHostVar, env[EmulatorHostVar])
      && ProjectVar in env && Yields(l.init.lines, ProjectVar, env[ProjectVar])
      && SameExcept(s.env, env, EmulatorHostVar, ProjectVar)
  {
    StartBoots(s, l, ticks);
  }

  /**
    An emulator that never answers with status 200 makes a launch time out,
    and the cleanup has cleared the published variables.
   */
  lemma NeverHealthyTimesOut(s: State, l: Launcher, ticks: nat)
    requires l.startOk && l.init.runOk && !l.init.scanErr && AllWellFormed(l.init.lines)
    requires forall i :: 0 <= i < |s.net| ==> s.net[i] != Status(200)
    ensures var r := Start(s, l, ticks);
      && r.outcome == Err(DeadlineExceeded)
      && r.st.handle.stopOnClose
      && EmulatorHostVar !in r.st.env && ProjectVar !in r.st.env
  {
    assert !Adopts(s) by {
      assert Answer(s.net, 0) != Status(200);
    }
    StartConfirmsLaunch(s, l, ticks);
    StartFailureAfterLaunch(s, l, ticks);
  }

  /** A close request was sent among `reqs`. */
  predicate ShutdownIn(reqs: seq<Request>) {
    exists i :: 0 <= i < |reqs| && reqs[i].verb == Post && reqs[i].path == ShutdownEndpoint
  }

  /** Closing a handle that adopted a running instance leaves everything as it was. */
  lemma AdoptedCloseIsInert(s: State, l: Launcher, ticks: nat)
    requires l.startOk && l.init.runOk ==> AllWellFormed(l.init.lines)
    requires !s.handle.stopOnClose && Adopts(s)
    ensures var a := Start(s, l, ticks);
      && !a.st.handle.stopOnClose
      && a.st.launches == s.launches
      && Close(a.st) == Step(Ok, a.st)
  {
  }

  /**
    The safety property: starting from a handle that owns nothing, a later
    close clears the environment or sends a shutdown request only if
    discovery failed and this handle set `stopOnClose`, whether or not its
    launch then succeeded.
   */
  lemma OnlyOwnerTearsDown(s: State, l: Launcher, ticks: nat)
    requires l.startOk && l.init.runOk ==> AllWellFormed(l.init.lines)
    requires !s.handle.stopOnClose
    ensures var a := Start(s, l, ticks);
      var c := Close(a.st);
      (c.st.env != a.st.env || ShutdownIn(c.st.log[|a.st.log|..])) ==>
        && !Adopts(s)
        && a.st.handle.stopOnClose
        && (a.st.launches == s.launches + 1 || a.outcome == Err(LaunchFailed))
  {
    var a := Start(s, l, ticks);
    var c := Close(a.st);
    if Adopts(s) {
      assert c == Step(Ok, a.st);
      assert c.st.log[|a.st.log|..] == [];
    }
  }

  /**
    A launch that fails still leaves the handle owning the emulator, so a
    later close clears the published variables and, if whatever answers at
    the handle's host is healthy, asks it to shut down, although this handle
    launched nothing.
   */
  lemma FailedLaunchTearsDown(s: State, l: Launcher, ticks: nat)
    requires !Adopts(s) && !l.startOk
    ensures var a := Start(s, l, ticks);
      var c := Close(a.st);
      && a.outcome == Err(LaunchFailed)
      && a.st.launches == s.launches
      && EmulatorHostVar !in c.st.env && ProjectVar !in c.st.env
      && SameExcept(a.st.env, c.st.env, EmulatorHostVar, ProjectVar)
      && (Answers200(a.st, 0) ==> ShutdownIn(c.st.log[|a.st.log|..]))
  {
    var a := Start(s, l, ticks);
    var c := Close(a.st);
    if Answers200(a.st, 0) {
      assert c.st.log[|a.st.log|..][1] == Request(Post, a.st.handle.host, ShutdownEndpoint);
    }
  }

  /**
    A concrete case: a handle pointing at a foreign instance whose launch
    fails still shuts that instance down on close.
   */
  lemma ForeignInstanceShutDown()
    ensures var s := State(Handle("http://foreign:1", "", false), map[], [Status(200), Status(200)], [], 0);
      var a := Start(s, Launcher(false, InitOutput(false, [], false)), 0);
      var c := Close(a.st);
      && a.st.launches == 0
      && c.outcome == Ok
      && c.st.log == [Request(Get, "http://foreign:1", HealthcheckEndpoint),
                      Request(Post, "http://foreign:1", ShutdownEndpoint)]
  {
  }

  /**
    `New` ignores a healthy instance advertised in the environment: its
    discovery probe goes to the fresh handle's empty host, so it launches
    a process whenever launching works.
   */
  lemma NewIgnoresRunningInstance(env: Env, net: seq<Response>, l: Launcher, ticks: nat)
    requires l.startOk && l.init.runOk ==> AllWellFormed(l.init.lines)
    requires Advertised(env) && Answer(net, 0) == Status(200) && l.startOk
    ensures New(env, net, l, ticks).st.launches == 1
    ensures New(env, net, l, ticks).st.handle.stopOnClose
  {
  }

  /** Closing twice clears the environment no further than closing once. */
  lemma CloseTwice(s: State)
    ensures var once := Close(s).st;
      Close(once).st.env == once.env
  {
  }
}

=== FILE: text.dfy ===
/**
  Go's `strings.Split` for a one-character separator, the only string
  operation the env-init parser uses, together with its inverse `Join`.
  `Split(s, c)` cuts `s` at every occurrence of `c`; an input without `c`
  (the empty string included) yields one piece, so there is always one more
  piece than there are separators.
 */
module Text {

  /** The pieces glued back together with `sep` between neighbours. */
  function Join(parts: seq<string>, sep: char): string
    requires |parts| >= 1
  {
    if |parts| == 1 then parts[0] else parts[0] + [sep] + Join(parts[1..], sep)
  }

  /** Position of the first occurrence of `c` in `s`. */
  function IndexOf(s: string, c: char): (i: nat)
    requires c in s
    ensures i < |s| && s[i] == c
    ensures c !in s[..i]
  {
    if s[0] == c then 0 else 1 + IndexOf(s[1..], c)
  }

  function Split(s: string, sep: char): (parts: seq<string>)
    ensures |parts| >= 1
    ensures |parts| == 1 <==> sep !in s
    ensures forall i :: 0 <= i < |parts| ==> sep !in parts[i]
    ensures Join(parts, sep) == s
    decreases |s|
  {
    if sep in s then
      var i := IndexOf(s, sep);
      [s[..i]] + Split(s[i + 1..], sep)
    else
      [s]
  }

  /** The first occurrence of `c` in `a + [c] + b` is right after `a` when `a` holds none. */
  lemma IndexOfAfterPrefix(a: string, c: char, b: string)
    requires c !in a
    ensures IndexOf(a + [c] + b, c) == |a|
  {
    var s := a + [c] + b;
    assert forall k :: 0 <= k < |a| ==> s[k] == a[k];
    assert forall k :: |a| < k <= |s| ==> s[..k][|a|] == c;
  }

  /** Cutting at a first separator peels off the text before it. */
  lemma SplitAtFirst(a: string, sep: char, b: string)
    requires sep !in a
    ensures Split(a + [sep] + b, sep) == [a] + Split(b, sep)
  {
    var s := a + [sep] + b;
    IndexOfAfterPrefix(a, sep, b);
    assert s[..|a|] == a;
    assert s[|a| + 1..] == b;
  }

  /** The first piece is the text up to the first separator. */
  lemma SplitHead(t: string, sep: char, rest: string)
    requires sep !in t
    requires rest == [] || rest[0] == sep
    ensures Split(t + rest, sep)[0] == t
  {
    if rest == [] {
      assert t + rest == t;
    } else {
      assert t + rest == t + [sep] + rest[1..];
      SplitAtFirst(t, sep, rest[1..]);
    }
  }

  /** A character absent from the joined text is absent from every piece. */
  lemma {:induction false} AbsentFromPieces(parts: seq<string>, sep: char, c: char)
    requires |parts| >= 1
    requires c !in Join(parts, sep)
    ensures forall i :: 0 <= i < |parts| ==> c !in parts[i]
  {
    if |parts| > 1 {
      var rest := Join(parts[1..], sep);
      assert Join(parts, sep) == parts[0] + [sep] + rest;
      forall x | x in parts[0] ensures x != c {
        var k :| 0 <= k < |parts[0]| && parts[0][k] == x;
        assert Join(parts, sep)[k] == x;
      }
      forall x | x in rest ensures x != c {
        var k :| 0 <= k < |rest| && rest[k] == x;
        assert Join(parts, sep)[|parts[0]| + 1 + k] == x;
      }
      AbsentFromPieces(parts[1..], sep, c);
      forall i | 1 <= i < |parts| ensures c !in parts[i] {
        assert parts[i] == parts[1..][i - 1];
      }
    }
  }

  /**
    Split is the unique inverse of Join on separator-free pieces: joining
    such pieces and splitting again gives the pieces back.
   */
  lemma {:induction false} SplitJoin(parts: seq<string>, sep: char)
    requires |parts| >= 1
    requires forall i :: 0 <= i < |parts| ==> sep !in parts[i]
    ensures Split(Join(parts, sep), sep) == parts
  {
    if |parts| > 1 {
      SplitJoin(parts[1..], sep);
      SplitAtFirst(parts[0], sep, Join(parts[1..], sep));
      assert parts == [parts[0]] + parts[1..];
    }
  }
}
